=== FILE: README.md ===
# Portfolio site core, modelled in Dafny

A model of the parts of a personal portfolio site (Next.js, TypeScript) that
carry logic:

- **Panel registry** (`PanelProvider`): a map from a panel's slug to the id
  of the one mounted instance allowed to render it. `register` claims a free
  slug, `unregister` releases a slug only for its owner, `isFirst` answers
  "may this instance render?". A class with a `map` field and methods
  (`PanelContext.PanelProvider`), specified by the pure transitions `Claim`
  and `Release`, with lemmas over arbitrary sequences of calls.
- **URL-driven panels** (`ContentPanel`): a panel is open when the `panel`
  query parameter equals its slug. An instance renders only if it is open
  and wins `isFirst`. Opening and closing rewrite only the `panel` parameter.
  The query string is an ordered list of name-value pairs with the
  `URLSearchParams` semantics of the URL Standard (WHATWG), section 6.2:
  `get` returns the first value, `set` replaces the first pair and drops the
  rest (or appends), and `delete` removes all pairs of a name.
- **Now-playing resolver** (`GET /api/spotify/now-playing`): refreshes an
  access token (RFC 6749, section 6) and asks for the current track. On 204
  No Content (RFC 9110, section 15.3.5), or when the current item is not a
  track (a podcast episode or an ad) or is missing, it falls back to the last
  played track. A paused track is returned as that track, not playing. Other failure statuses pass
  through. The three upstream answers are inputs, and the result lists the
  upstream calls made.
- **OAuth callback** (`GET /api/spotify/callback`): ordered checks, then the
  authorization-code exchange (RFC 6749, section 4.1.3) with HTTP Basic
  client authentication (RFC 6749, section 2.3.1).
- **MDX helpers**: `extractLanguage` (the search `/language-(\w+)/`), the
  inline/block decision and trimming of the `code` override, and the
  override precedence of the component map.
- **Content queries**: `getRecentItems`, `getItemsByCategory`, `toLinkItem`
  and `toLinkItems`. Dates are integer timestamps, and the sort is stable and
  newest first.

The queries are functions of the catalogue, so sorting works on a copy and
the catalogue keeps its order, as the copy made before `sort` ensures in the
code.

Files: `js_values.dfy` (optional values, JavaScript truthiness),
`query_params.dfy`, `panel_context.dfy`, `content_panel.dfy`,
`spotify_token.dfy` (the token request both routes send), `now_playing.dfy`,
`spotify_callback.dfy`, `mdx_components.dfy`, `content.dfy`.

Failures in the now-playing route are not all alike. A failed token refresh
gives 500. A failed currently-playing call (not 2xx, not 204) gives an error
body with the upstream status. Only the recently-played step collapses to
`{ isPlaying: false }`, when its call fails or its history has no first
track.

`toLinkItem` copies `slug` and `videoSrc`, which the `LinkItem` interface in
`app/components/link-section.tsx` does not declare. The model's `LinkItem`
has both fields, following the function.

## Model

| member | source | states |
|---|---|---|
| `QueryParams.FirstValue` | app/components/content-panel.tsx:54 | `get` is `null` exactly when no pair has the name; otherwise it is the value of the first such pair |
| `QueryParams.Without` | app/components/content-panel.tsx:71 | `delete` keeps exactly the pairs of other names, and never grows the list |
| `QueryParams.WithoutCounts` | app/components/content-panel.tsx:71 | `delete` keeps each pair of another name as many times as it occurs, and no pair of the name |
| `QueryParams.WithoutConcat` | app/components/content-panel.tsx:71 | `delete` works pair by pair: on two lists joined it is the two results joined, so the kept pairs stay in order |
| `QueryParams.WithoutAbsent` | app/components/content-panel.tsx:71 | deleting a name no pair carries leaves the list unchanged |
| `QueryParams.SetValue` | app/components/content-panel.tsx:69 | after `set`, `get` returns the new value, and deleting the name from the result or from the input gives the same list, so all other pairs stay, in order |
| `QueryParams.WithoutIdempotent` | app/components/content-panel.tsx:71 | deleting a name twice is the same as deleting it once |
| `QueryParams.SetValueLeavesOnePair` | app/components/content-panel.tsx:69 | after `set`, exactly one pair carries the name |
| `QueryParams.SetValueAppends` | app/components/content-panel.tsx:69 | with no pair of the name, `set` appends the new pair at the end |
| `QueryParams.SetValueReplaces` | app/components/content-panel.tsx:69 | otherwise `set` puts the new pair where the first pair of the name was, keeps every pair before it, and deletes the name from the pairs after it |
| `QueryParams.NoneLeftAfterWithout` | app/components/content-panel.tsx:71 | after `delete`, no pair carries the name |
| `QueryParams.OtherNamesUnaffected` | app/components/content-panel.tsx:67-73 | deleting one name never changes `get` for any other name |
| `QueryParams.SetLeavesOtherNames` | app/components/content-panel.tsx:67-73 | setting one name never changes `get` for any other name |
| `QueryParams.SearchParams.constructor` | app/components/content-panel.tsx:67 | a new parameter object holds the current query's pairs |
| `QueryParams.SearchParams.Set` | app/components/content-panel.tsx:69 | the pairs become `SetValue` of the old pairs |
| `QueryParams.SearchParams.Delete` | app/components/content-panel.tsx:71 | the pairs become `Without` of the old pairs |
| `PanelContext.Claim` | app/components/panel-context.tsx:16-25 | a free slug becomes owned by the caller; an owned slug keeps its owner whatever the caller's id; no other slug changes |
| `PanelContext.Release` | app/components/panel-context.tsx:27-36 | the entry goes only when the caller owns it, otherwise the registry is unchanged; no other entry changes |
| `PanelContext.ClaimThenReleaseRestores` | app/components/panel-context.tsx:16-36 | register then unregister with one id on a free slug restores the original registry |
| `PanelContext.Replay` | app/components/panel-context.tsx:16-36 | applying a sequence of calls only ever adds slugs that the calls mention |
| `PanelContext.OwnerKeepsSlug` | app/components/panel-context.tsx:16-40 | once an instance owns a slug, it keeps it through any calls except its own unregister, and every other instance's `isFirst` is false |
| `PanelContext.FirstRegistrantWins` | app/components/panel-context.tsx:16-40 | after `register(s, a)` on a free slug, `a` may render and any `b != a` may not, until `a` unregisters |
| `PanelContext.AtMostOneWinner` | app/components/panel-context.tsx:38-40 | in any registry, an owned slug has at most one instance passing `isFirst` |
| `PanelContext.OwnersRegistered` | app/components/panel-context.tsx:16-36 | after any calls, each owner was already the owner before them or made a `register` call for that slug itself |
| `PanelContext.PanelProvider.constructor` | app/components/panel-context.tsx:14 | the registry starts empty |
| `PanelContext.PanelProvider.Register` | app/components/panel-context.tsx:16-25 | the registry becomes `Claim` of the old registry |
| `PanelContext.PanelProvider.Unregister` | app/components/panel-context.tsx:27-36 | the registry becomes `Release` of the old registry |
| `PanelContext.PanelProvider.IsFirst` | app/components/panel-context.tsx:38-40 | true exactly when the slug is unowned or owned by the caller |
| `ContentPanel.IsOpen` | app/components/content-panel.tsx:54 | open exactly when the first `panel` pair of the query carries the slug; `SetIsOpen`, `ShouldRenderPanel` and `AtMostOneOpen` are stated through it |
| `ContentPanel.AtMostOneOpen` | app/components/content-panel.tsx:54 | one query string opens at most one slug |
| `ContentPanel.PanelInstance.constructor` | app/components/content-panel.tsx:51-52 | an instance starts with its slug, its own id and the shared registry, and no cleanup is pending |
| `ContentPanel.PanelInstance.ShouldRenderPanel` | app/components/content-panel.tsx:55 | renders exactly when open and the instance wins `isFirst`; a closed panel never renders |
| `ContentPanel.PanelInstance.SyncOpenEffect` | app/components/content-panel.tsx:58-63 | when `isOpen` changes, an open panel registers under its own id and the previous cleanup unregisters under that same id; otherwise the registry is unchanged |
| `ContentPanel.PanelInstance.Unmount` | app/components/content-panel.tsx:61 | unmounting runs a pending cleanup, which unregisters under the instance's id |
| `ContentPanel.PanelInstance.SetIsOpen` | app/components/content-panel.tsx:65-76 | opening gives exactly `set("panel", slug)` of the query and closing exactly `delete("panel")`; opening makes this slug, and no other, open; closing leaves no slug open; either way every other parameter keeps its pairs, in order, and its `get` value |
| `ContentPanel.DuplicateMount` | app/components/content-panel.tsx:55-63 | of two instances of one panel whose effects ran in mount order, the first renders exactly when the panel is open, and the second never renders |
| `SpotifyToken.FormBody` | app/api/spotify/callback/route.ts:34-38 | the form body carries `grant_type` of the grant, and the refresh token, or the code and redirect URI |
| `NowPlaying.JoinNames` | app/api/spotify/now-playing/route.ts:122 | joining no names gives `""`, and joining one name gives that name |
| `NowPlaying.JoinNamesSnoc` | app/api/spotify/now-playing/route.ts:122 | `join(', ')` builds left to right: appending a name to a non-empty list appends `", "` and that name, whatever the names contain |
| `NowPlaying.SeparatorIndex` | app/api/spotify/now-playing/route.ts:122 | finds the leftmost `", "`, or reports that there is none |
| `NowPlaying.JoinSplitRoundTrip` | app/api/spotify/now-playing/route.ts:74 | when no artist name contains `", "`, splitting `artist` at `", "` gives back the names, in order |
| `NowPlaying.FirstImageUrl` | app/api/spotify/now-playing/route.ts:124 | the first image's URL, and absent exactly when there are no images |
| `NowPlaying.SnapshotOf` | app/api/spotify/now-playing/route.ts:119-128 | title, album and song URL are copied from the track; `artist` is the joined names; the image is the first one's URL |
| `NowPlaying.GetAccessToken` | app/api/spotify/now-playing/route.ts:36-58 | with any credential missing or empty: `null` and no call; otherwise exactly one refresh-token request with the configured credentials; a token comes only from an ok reply, and an ok reply's token is returned |
| `NowPlaying.FirstPlayed` | app/api/spotify/now-playing/route.ts:68 | the track is the first history entry's track, and absent when the history is missing or empty |
| `NowPlaying.GetRecentlyPlayed` | app/api/spotify/now-playing/route.ts:60-79 | one call with the access token; a snapshot exactly when the reply is ok and has a first track; such a snapshot is not playing and has no progress or duration |
| `NowPlaying.Fallback` | app/api/spotify/now-playing/route.ts:96-100 | answers 200 after one recently-played call; the body is a track exactly when that reply is ok and has a first track, and then it is that track's not-playing snapshot; otherwise `{ isPlaying: false }` |
| `NowPlaying.Get` | app/api/spotify/now-playing/route.ts:81-129 | no token gives 500 `Failed to get access token`; 204 gives the fallback; another non-ok status is passed through with an error body; a non-track or missing item gives the fallback; a track gives a snapshot with `isPlaying`, `progress_ms` and `duration_ms` copied |
| `NowPlaying.ErrorsCarryFailureStatus` | app/api/spotify/now-playing/route.ts:81-129 | for any upstream answers, an error body comes exactly with a non-2xx status, and every other body with 200 |
| `NowPlaying.CallsFollowToken` | app/api/spotify/now-playing/route.ts:81-129 | at most three upstream calls; the token call comes first and only when configured; every later call carries the token it returned |
| `NowPlaying.PlayingTrackEndToEnd` | app/api/spotify/now-playing/route.ts:81-129 | configured, an ok token reply with a token, and a 2xx non-204 answer with a track give 200 with that track's title, playing flag, progress and duration, after exactly the token call and the currently-playing call |
| `NowPlaying.PlayingImpliesCurrentTrack` | app/api/spotify/now-playing/route.ts:109-128 | a snapshot that says "playing" comes from a 2xx, non-204 currently-playing track and carries its progress and duration |
| `JsValues.OrElse` | app/api/spotify/callback/route.ts:45 | `x \|\| fallback` for an optional string: the value when it is non-empty, the fallback otherwise |
| `SpotifyCallback.Get` | app/api/spotify/callback/route.ts:7-58 | `error` gives 400 first; then a missing `code` gives 400 `Missing code`; then missing configuration gives 500, and only then; the token request is sent only past all checks, with the received code and configured redirect URI; a failed exchange gives 400 with `error_description` or `Token exchange failed`; success echoes the tokens unchanged |
| `SpotifyCallback.TokenRequestCarriesCode` | app/api/spotify/callback/route.ts:26-39 | the request body carries `grant_type=authorization_code`, the query's code and the configured redirect URI |
| `SpotifyCallback.RejectionsIgnoreReply` | app/api/spotify/callback/route.ts:11-24 | when no token request is sent, the response does not depend on the token endpoint |
| `MdxComponents.WordRun` | mdx-components.tsx:11 | the longest prefix made of `\w` characters |
| `MdxComponents.FindMatch` | mdx-components.tsx:11 | the leftmost position where `language-` is followed by a word character, or none |
| `MdxComponents.ExtractLanguage` | mdx-components.tsx:9-13 | never empty; `plaintext` for a missing or empty class name and when the pattern does not match; otherwise the maximal word run after the leftmost match |
| `MdxComponents.IsInline` | mdx-components.tsx:72 | inline exactly when there is no class name or it does not contain `language-`: a name shorter than the prefix is inline, one starting with it is not; `RenderCode` and `NamedLanguageIsBlock` are stated through it |
| `MdxComponents.NamedLanguageIsBlock` | mdx-components.tsx:72 | a class name that names a language is never inline code |
| `MdxComponents.BarePrefixIsPlainBlock` | mdx-components.tsx:72-85 | `"language-"` alone is block code in `plaintext` |
| `MdxComponents.LeadingSpace` | mdx-components.tsx:86 | counts the white space at the start of the text |
| `MdxComponents.TrailingSpace` | mdx-components.tsx:86 | counts the white space at the end of the text |
| `MdxComponents.Trim` | mdx-components.tsx:86 | the result is an infix of the input with only white space cut away, and it neither starts nor ends with white space |
| `MdxComponents.TrimIdempotent` | mdx-components.tsx:86 | trimming twice is trimming once |
| `MdxComponents.RenderCode` | mdx-components.tsx:67-94 | inline exactly when the class name is absent or lacks `language-`, with the children kept; otherwise a block with the extracted language and the trimmed text |
| `MdxComponents.UseMdxComponents` | mdx-components.tsx:15-104 | every default key and every supplied key is present; a supplied component replaces the default of the same key |
| `Content.Insert` | app/lib/content.ts:10 | inserting into a newest-first list keeps it newest first and adds exactly the one item |
| `Content.SortNewestFirst` | app/lib/content.ts:9-10 | the result is newest first and a permutation of the input |
| `Content.SortIsStable` | app/lib/content.ts:10 | items with the same date keep their catalogue order |
| `Content.SliceEnd` | app/lib/content.ts:11 | `slice(0, count)` ends at `min(count, length)` for a non-negative count, and counts back from the end for a negative one |
| `Content.GetRecentItems` | app/lib/content.ts:8-12 | `min(count, \|items\|)` items for a non-negative count, newest first, all taken from the catalogue |
| `Content.GetRecentItemsDefault` | app/lib/content.ts:8 | the call without a count is the call with count 3, so it gives the three newest items (fewer if the catalogue is smaller) |
| `Content.RecentItemsAreNewest` | app/lib/content.ts:8-12 | no item left out is newer than an item taken |
| `Content.OfCategory` | app/lib/content.ts:19 | keeps every item of the category, as often as it occurs, and nothing else |
| `Content.OfCategoryConcat` | app/lib/content.ts:19 | `filter` works item by item: on two lists joined it is the two results joined, so the kept items stay in catalogue order |
| `Content.GetItemsByCategory` | app/lib/content.ts:17-21 | exactly the items of the category, none missing and none extra, newest first |
| `Content.CategoryKeepsTies` | app/lib/content.ts:17-21 | among a category's items of one date, `getItemsByCategory` keeps catalogue order |
| `Content.ToLinkItem` | app/lib/content.ts:27-37 | slug, image, alt text, title, description and video are copied unchanged; the content is the item's component |
| `Content.ToLinkItems` | app/lib/content.ts:42-44 | one card per item, in the same order |
| `Content.ToLinkItemsConcat` | app/lib/content.ts:42-44 | the cards of two lists joined are the cards of each, joined: one card per item, in order |

## Left out

- HTTP, `fetch`, JSON parsing and `NextResponse`: upstream answers are input values, and responses are a status with a body value. A body that is not JSON, which would throw, is not modelled.
- Base64 encoding of the `Authorization: Basic` header: the credentials appear as a pair.
- Environment variables: each configuration value is an optional string.
- URL encoding: `searchParams.toString()`, re-parsing it, and the path that `router.replace` receives. The query is the list of pairs.
- React scheduling: every registry call is one atomic step, and an effect runs only when `isOpen` changes. Before either duplicate's effect has run, the slug is free, so both instances pass `isFirst` for that moment. `DuplicateMount` states the result after both effects have run.
- Rendering, animation, the drawer, the desktop body-scroll lock (`app/components/content-panel.tsx:79-86`) and `useMediaQuery`: these are DOM and styling.
- `usePanelRegistry` throwing outside a provider: the model always passes the provider.
- `Date` parsing: dates are integer timestamps, so an unparsable date (NaN comparisons) is not modelled.
- `NowPlaying.Get`: a pass-through status outside 200-599, which `NextResponse.json` would reject, is not modelled.
- `String(children)` conversion in the `code` override: the children are taken as text.
- The inline branch's other props and the shiki highlighting, copying and "Copied" flag of the code block.
- The `login` route, the player widget, header, footer, hydration gate and work-experience timeline: UI, timers, floating point or a bare redirect.

=== FILE: content.dfy ===
/**
 * Queries over the site's content catalogue (`contentItems`): the most
 * recent items, the items of one category, and their conversion to the
 * link cards the page lists. Dates are taken as integer timestamps, and the
 * catalogue is passed in rather than read from the module.
 */
module Content {
  import opened JsValues

  datatype Category = Work | Writing

  /** A content entry: its metadata plus the MDX component that renders it. */
  datatype ContentItem = ContentItem(
    slug: string,
    title: string,
    description: string,
    imageSrc: string,
    imageAlt: string,
    category: Category,
    date: int,
    videoSrc: Option<string>,
    component: string)

  /** `createElement(item.Component)`. */
  datatype Element = Element(component: string)

  /** A card of the link section. */
  datatype LinkItem = LinkItem(
    slug: string,
    imageSrc: string,
    imageAlt: string,
    title: string,
    description: string,
    content: Element,
    videoSrc: Option<string>)

  /** The default `count` of `getRecentItems`. */
  const DefaultRecentCount := 3

  // ---------------------------------------------------------------------------
  // Sorting newest first

  predicate NewestFirst(xs: seq<ContentItem>) {
    forall i, j :: 0 <= i < j < |xs| ==> xs[i].date >= xs[j].date
  }

  /** Inserts `x` before the first item that is not newer, so that ties keep `x` in front. */
  function Insert(x: ContentItem, ys: seq<ContentItem>): (r: seq<ContentItem>)
    requires NewestFirst(ys)
    ensures NewestFirst(r)
    ensures multiset(r) == multiset(ys) + multiset{x}
    ensures |r| == |ys| + 1
    ensures r[0] == x || (ys != [] && r[0] == ys[0])
  {
    if ys == [] || ys[0].date <= x.date then
      PrependNewest(x, ys);
      [x] + ys
    else
      var rest := Insert(x, ys[1..]);
      PrependNewest(ys[0], rest);
      HeadMultiset(ys);
      [ys[0]] + rest
  }

  /** Putting an item no older than the head in front keeps a list newest first. */
  lemma PrependNewest(y: ContentItem, rest: seq<ContentItem>)
    requires NewestFirst(rest)
    requires rest != [] ==> rest[0].date <= y.date
    ensures NewestFirst([y] + rest)
    ensures multiset([y] + rest) == multiset{y} + multiset(rest)
  {
    var r := [y] + rest;
    forall i, j | 0 <= i < j < |r|
      ensures r[i].date >= r[j].date
    {
      if i > 0 {
        assert r[i] == rest[i - 1] && r[j] == rest[j - 1];
      } else {
        assert r[j] == rest[j - 1];
      }
    }
  }

  /** A non-empty list is its head followed by its tail. */
  lemma HeadTail<T>(s: seq<T>)
    requires s != []
    ensures [s[0]] + s[1..] == s
  {
  }

  /** A list's multiset is its head's plus its tail's. */
  lemma HeadMultiset<T>(s: seq<T>)
    requires s != []
    ensures multiset(s) == multiset{s[0]} + multiset(s[1..])
  {
    assert s == [s[0]] + s[1..];
  }

  /**
   * The `sort` with comparator `b.date - a.date`: newest first, and stable
   * (items with the same date keep their order), as `Array.prototype.sort` is.
   */
  function SortNewestFirst(xs: seq<ContentItem>): (r: seq<ContentItem>)
    ensures NewestFirst(r)
    ensures multiset(r) == multiset(xs)
    ensures |r| == |xs|
  {
    if xs == [] then []
    else
      assert xs == [xs[0]] + xs[1..];
      Insert(xs[0], SortNewestFirst(xs[1..]))
  }

  /** The items of `xs` dated `d`, in order. */
  function DatedOn(xs: seq<ContentItem>, d: int): seq<ContentItem>
  {
    if xs == [] then []
    else (if xs[0].date == d then [xs[0]] else []) + DatedOn(xs[1..], d)
  }

  lemma DatedOnCons(y: ContentItem, rest: seq<ContentItem>, d: int)
    ensures DatedOn([y] + rest, d) == (if y.date == d then [y] else []) + DatedOn(rest, d)
  {
    assert ([y] + rest)[1..] == rest;
  }

  lemma {:induction false} InsertKeepsTies(x: ContentItem, ys: seq<ContentItem>, d: int)
    requires NewestFirst(ys)
    ensures DatedOn(Insert(x, ys), d) == (if x.date == d then [x] else []) + DatedOn(ys, d)
  {
    if ys == [] || ys[0].date <= x.date {
      assert Insert(x, ys) == [x] + ys;
      DatedOnCons(x, ys, d);
      if x.date == d && ys != [] && ys[0].date < d {
        NoneDatedOn(ys, d);
      }
    } else {
      var rest := Insert(x, ys[1..]);
      assert Insert(x, ys) == [ys[0]] + rest;
      InsertKeepsTies(x, ys[1..], d);
      DatedOnCons(ys[0], rest, d);
      DatedOnCons(ys[0], ys[1..], d);
      HeadTail(ys);
    }
  }

  /** In a newest-first list whose head is older than `d`, nothing is dated `d`. */
  lemma {:induction false} NoneDatedOn(ys: seq<ContentItem>, d: int)
    requires NewestFirst(ys)
    requires ys != [] && ys[0].date < d
    ensures DatedOn(ys, d) == []
  {
    if |ys| > 1 {
      NoneDatedOn(ys[1..], d);
    }
  }

  /** The sort is stable: the items of any one date come out in catalogue order. */
  lemma {:induction false} SortIsStable(xs: seq<ContentItem>, d: int)
    ensures DatedOn(SortNewestFirst(xs), d) == DatedOn(xs, d)
  {
    if xs != [] {
      SortIsStable(xs[1..], d);
      InsertKeepsTies(xs[0], SortNewestFirst(xs[1..]), d);
    }
  }

  // ---------------------------------------------------------------------------
  // The queries

  /** The end index `slice(0, count)` uses on a list of length `len`. */
  function SliceEnd(len: nat, count: int): (e: nat)
    ensures e <= len
    ensures count >= 0 ==> e == if count < len then count else len
    ensures count < 0 ==> e == if len + count > 0 then len + count else 0
  {
    if count >= 0 then (if count < len then count else len)
    else if len + count > 0 then len + count
    else 0
  }

  /** `getRecentItems(count)`: the newest `count` items of a sorted copy of the catalogue. */
  function GetRecentItems(items: seq<ContentItem>, count: int): (r: seq<ContentItem>)
    ensures count >= 0 ==> |r| == if count < |items| then count else |items|
    ensures NewestFirst(r)
    ensures forall x :: x in r ==> x in items
    ensures multiset(r) <= multiset(items)
  {
    var sorted := SortNewestFirst(items);
    var n := SliceEnd(|items|, count);
    SplitMultiset(sorted, n);
    assert forall x :: x in sorted[..n] ==> x in multiset(sorted);
    sorted[..n]
  }

  /** Cutting a list in two splits its multiset in two. */
  lemma SplitMultiset(s: seq<ContentItem>, n: nat)
    requires n <= |s|
    ensures multiset(s) == multiset(s[..n]) + multiset(s[n..])
  {
    assert s == s[..n] + s[n..];
  }

  /** `getRecentItems()` with its default count. */
  function GetRecentItemsDefault(items: seq<ContentItem>): (r: seq<ContentItem>)
    ensures r == GetRecentItems(items, DefaultRecentCount)
    ensures |r| == if |items| < DefaultRecentCount then |items| else DefaultRecentCount
  {
    GetRecentItems(items, DefaultRecentCount)
  }

  /** The recent items really are the newest: no item left out is newer than one taken. */
  lemma RecentItemsAreNewest(items: seq<ContentItem>, count: int, y: ContentItem)
    requires y in multiset(items) - multiset(GetRecentItems(items, count))
    ensures forall x :: x in GetRecentItems(items, count) ==> y.date <= x.date
  {
    var sorted := SortNewestFirst(items);
    var n := SliceEnd(|items|, count);
    SplitMultiset(sorted, n);
    assert y in multiset(sorted[n..]);
    TailNoNewer(sorted, n, y);
  }

  /** In a newest-first list, nothing after position `n` is newer than anything before it. */
  lemma TailNoNewer(s: seq<ContentItem>, n: nat, y: ContentItem)
    requires NewestFirst(s) && n <= |s|
    requires y in multiset(s[n..])
    ensures forall x :: x in s[..n] ==> y.date <= x.date
  {
    var k :| 0 <= k < |s[n..]| && s[n..][k] == y;
    assert s[n + k] == y;
    forall x | x in s[..n]
      ensures y.date <= x.date
    {
      var i :| 0 <= i < n && s[i] == x;
    }
  }

  /** `filter(item => item.category === category)`. */
  function OfCategory(items: seq<ContentItem>, category: Category): (r: seq<ContentItem>)
    ensures forall x :: x in r <==> x in items && x.category == category
    ensures forall x: ContentItem :: x.category == category ==> multiset(r)[x] == multiset(items)[x]
    ensures forall x: ContentItem :: x.category != category ==> multiset(r)[x] == 0
  {
    if items == [] then []
    else
      assert items == [items[0]] + items[1..];
      (if items[0].category == category then [items[0]] else []) + OfCategory(items[1..], category)
  }

  /** `filter` works item by item: it keeps the order of what it keeps. */
  lemma {:induction false} OfCategoryConcat(a: seq<ContentItem>, b: seq<ContentItem>, category: Category)
    ensures OfCategory(a + b, category) == OfCategory(a, category) + OfCategory(b, category)
  {
    if a == [] {
      assert a + b == b;
    } else {
      OfCategoryConcat(a[1..], b, category);
      OfCategoryStep(a, b, category);
    }
  }

  /** The inductive step of `OfCategoryConcat`: peel the head of `a` off `a + b`. */
  lemma OfCategoryStep(a: seq<ContentItem>, b: seq<ContentItem>, category: Category)
    requires a != []
    ensures OfCategory(a + b, category) ==
            (if a[0].category == category then [a[0]] else []) + OfCategory(a[1..] + b, category)
  {
    assert (a + b)[0] == a[0] && (a + b)[1..] == a[1..] + b;
  }

  /** `getItemsByCategory(category)`: exactly the items of that category, newest first. */
  function GetItemsByCategory(items: seq<ContentItem>, category: Category): (r: seq<ContentItem>)
    ensures forall x :: x in r <==> x in items && x.category == category
    ensures forall x: ContentItem :: x.category == category ==> multiset(r)[x] == multiset(items)[x]
    ensures NewestFirst(r)
  {
    SortNewestFirst(OfCategory(items, category))
  }

  /** Items of one category and one date keep their catalogue order. */
  lemma CategoryKeepsTies(items: seq<ContentItem>, category: Category, d: int)
    ensures DatedOn(GetItemsByCategory(items, category), d) == DatedOn(OfCategory(items, category), d)
  {
    SortIsStable(OfCategory(items, category), d);
  }

  /** `toLinkItem`. */
  function ToLinkItem(item: ContentItem): (l: LinkItem)
    ensures l.slug == item.slug && l.imageSrc == item.imageSrc && l.imageAlt == item.imageAlt
    ensures l.title == item.title && l.description == item.description && l.videoSrc == item.videoSrc
    ensures l.content == Element(item.component)
  {
    LinkItem(item.slug, item.imageSrc, item.imageAlt, item.title, item.description,
             Element(item.component), item.videoSrc)
  }

  /** `toLinkItems`: one card per item, in the same order. */
  function ToLinkItems(items: seq<ContentItem>): (r: seq<LinkItem>)
    ensures |r| == |items|
    ensures forall i :: 0 <= i < |items| ==> r[i] == ToLinkItem(items[i])
  {
    if items == [] then [] else [ToLinkItem(items[0])] + ToLinkItems(items[1..])
  }

  /** Converting a list joined from two parts converts each part. */
  lemma {:induction false} ToLinkItemsConcat(a: seq<ContentItem>, b: seq<ContentItem>)
    ensures ToLinkItems(a + b) == ToLinkItems(a) + ToLinkItems(b)
  {
    if a != [] {
      assert (a + b)[1..] == a[1..] + b;
      ToLinkItemsConcat(a[1..], b);
    }
  }
}

=== FILE: content_panel.dfy ===
/**
 * `ContentPanel`: a slide-up panel whose open state lives in the `panel`
 * query parameter, and which arbitrates between its duplicate mounts through
 * the panel registry.
 */
module ContentPanel {
  import opened JsValues
  import opened QueryParams
  import opened PanelContext

  /** The query parameter that names the open panel. */
  const PanelParam := "panel"

  /**
   * `isOpen`: `searchParams.get("panel") === slug`, that is, the first
   * `panel` pair of the query carries this slug.
   */
  predicate IsOpen(query: seq<Pair>, slug: Slug): (b: bool)
    ensures b <==> exists i :: 0 <= i < |query| && query[i] == (PanelParam, slug) &&
                      forall j :: 0 <= j < i ==> query[j].0 != PanelParam
  {
    FirstValue(query, PanelParam) == Some(slug)
  }

  /** At most one panel is open for a given query string. */
  lemma AtMostOneOpen(query: seq<Pair>, a: Slug, b: Slug)
    requires IsOpen(query, a) && IsOpen(query, b)
    ensures a == b
  {
  }

  /** One mounted `ContentPanel` instance. */
  class PanelInstance {
    const slug: Slug
    const instanceId: InstanceId
    const provider: PanelProvider
    /** The open effect has run with `isOpen` true and its cleanup is pending. */
    var cleanupPending: bool

    constructor (slug: Slug, instanceId: InstanceId, provider: PanelProvider)
      ensures this.slug == slug && this.instanceId == instanceId && this.provider == provider
      ensures !cleanupPending
    {
      this.slug := slug;
      this.instanceId := instanceId;
      this.provider := provider;
      cleanupPending := false;
    }

    /** `shouldRenderPanel`: open, and this instance wins `isFirst` for its slug. */
    function ShouldRenderPanel(query: seq<Pair>): (r: bool)
      reads provider
      ensures r ==> IsOpen(query, slug)
      ensures r <==> IsOpen(query, slug) && (slug !in provider.registry || provider.registry[slug] == instanceId)
    {
      IsOpen(query, slug) && provider.IsFirst(slug, instanceId)
    }

    /**
     * The register-on-open effect, run after a render whose `isOpen` differs
     * from the previous run's: the previous run's cleanup unregisters, and an
     * open panel registers, both under this instance's own id.
     */
    method SyncOpenEffect(query: seq<Pair>)
      modifies this, provider
      ensures cleanupPending == IsOpen(query, slug)
      ensures provider.registry ==
        if old(cleanupPending) == IsOpen(query, slug) then old(provider.registry)
        else if IsOpen(query, slug) then Claim(old(provider.registry), slug, instanceId)
        else Release(old(provider.registry), slug, instanceId)
    {
      var open := IsOpen(query, slug);
      if open != cleanupPending {
        if cleanupPending {
          provider.Unregister(slug, instanceId);
        }
        if open {
          provider.Register(slug, instanceId);
        }
        cleanupPending := open;
      }
    }

    /** Unmounting runs the pending cleanup, if any. */
    method Unmount()
      modifies this, provider
      ensures !cleanupPending
      ensures provider.registry ==
        if old(cleanupPending) then Release(old(provider.registry), slug, instanceId)
        else old(provider.registry)
    {
      if cleanupPending {
        provider.Unregister(slug, instanceId);
        cleanupPending := false;
      }
    }

    /**
     * `setIsOpen(open)`: the query string handed to `router.replace`.
     * Opening sets `panel` to this slug, closing deletes it; every other
     * parameter stays, in order.
     */
    method SetIsOpen(query: seq<Pair>, open: bool) returns (next: seq<Pair>)
      ensures open ==> next == SetValue(query, PanelParam, slug)
      ensures !open ==> next == Without(query, PanelParam)
      ensures Without(next, PanelParam) == Without(query, PanelParam)
      ensures forall name :: name != PanelParam ==> FirstValue(next, name) == FirstValue(query, name)
      ensures open ==> IsOpen(next, slug)
      ensures open ==> forall other :: other != slug ==> !IsOpen(next, other)
      ensures !open ==> forall s :: !IsOpen(next, s)
    {
      var params := new SearchParams(query);
      if open {
        params.Set(PanelParam, slug);
      } else {
        params.Delete(PanelParam);
        WithoutIdempotent(query, PanelParam);
      }
      next := params.pairs;
      forall name | name != PanelParam
        ensures FirstValue(next, name) == FirstValue(query, name)
      {
        OtherNamesUnaffected(next, PanelParam, name);
        OtherNamesUnaffected(query, PanelParam, name);
      }
    }
  }

  /**
   * Two instances of one panel mounted side by side on an empty registry,
   * their open effects run in mount order: only the first renders, and only
   * when the query opens the panel.
   */
  method DuplicateMount(query: seq<Pair>, slug: Slug, first: InstanceId, second: InstanceId)
    returns (firstRenders: bool, secondRenders: bool)
    requires first != second
    ensures firstRenders == IsOpen(query, slug)
    ensures !secondRenders
  {
    var provider := new PanelProvider();
    var a := new PanelInstance(slug, first, provider);
    var b := new PanelInstance(slug, second, provider);
    a.SyncOpenEffect(query);
    b.SyncOpenEffect(query);
    firstRenders := a.ShouldRenderPanel(query);
    secondRenders := b.ShouldRenderPanel(query);
  }
}

=== FILE: js_values.dfy ===
/** Values as the site's TypeScript code sees them. */
module JsValues {

  /** A value that may be `undefined` or `null`. */
  datatype Option<+T> = None | Some(value: T)

  /** JavaScript truthiness of an optional string: `undefined`, `null` and `""` are falsy. */
  predicate Truthy(o: Option<string>) {
    o.Some? && o.value != ""
  }

  /** `o || fallback` for an optional string. */
  function OrElse(o: Option<string>, fallback: string): (r: string)
    ensures Truthy(o) ==> r == o.value
    ensures !Truthy(o) ==> r == fallback
  {
    if Truthy(o) then o.value else fallback
  }
}

=== FILE: mdx_components.dfy ===
/**
 * `useMDXComponents`: the element overrides used when rendering MDX content.
 * Only the `code` override has logic: it decides between inline code and a
 * highlighted block, and picks the block's language from the class name.
 */
module MdxComponents {
  import opened JsValues

  // ---------------------------------------------------------------------------
  // extractLanguage: the regular expression /language-(\w+)/

  /** `\w`: an ASCII letter, digit or underscore. */
  predicate IsWordChar(c: char) {
    ('a' <= c <= 'z') || ('A' <= c <= 'Z') || ('0' <= c <= '9') || c == '_'
  }

  const LanguagePrefix := "language-"
  const PlainText := "plaintext"

  /** The longest prefix of `s` made of word characters. */
  function WordRun(s: string): (w: string)
    ensures w <= s
    ensures forall k :: 0 <= k < |w| ==> IsWordChar(w[k])
    ensures |w| < |s| ==> !IsWordChar(s[|w|])
  {
    if s == [] || !IsWordChar(s[0]) then [] else [s[0]] + WordRun(s[1..])
  }

  /** The pattern matches at position `i`: `language-` followed by a word character. */
  predicate MatchesAt(s: string, i: int) {
    0 <= i && i + |LanguagePrefix| < |s| &&
    s[i..i + |LanguagePrefix|] == LanguagePrefix && IsWordChar(s[i + |LanguagePrefix|])
  }

  /** `i` is where a regular-expression search finds the pattern: the leftmost match. */
  predicate LeftmostMatch(s: string, i: int) {
    MatchesAt(s, i) && forall j :: 0 <= j < i ==> !MatchesAt(s, j)
  }

  /** The leftmost match at or after `from`. */
  function FindMatch(s: string, from: nat): (r: Option<nat>)
    ensures r.Some? ==> from <= r.value && MatchesAt(s, r.value)
    ensures r.Some? ==> forall j :: from <= j < r.value ==> !MatchesAt(s, j)
    ensures r.None? ==> forall j :: from <= j ==> !MatchesAt(s, j)
    decreases |s| - from
  {
    if from >= |s| then None
    else if MatchesAt(s, from) then Some(from)
    else FindMatch(s, from + 1)
  }

  /** `extractLanguage(className)`. */
  function ExtractLanguage(className: Option<string>): (lang: string)
    ensures lang != ""
    ensures !Truthy(className) ==> lang == PlainText
    ensures Truthy(className) && (forall i :: 0 <= i < |className.value| ==> !MatchesAt(className.value, i)) ==>
      lang == PlainText
    ensures forall i :: Truthy(className) && LeftmostMatch(className.value, i) ==>
      lang == WordRun(className.value[i + |LanguagePrefix|..])
  {
    if !Truthy(className) then PlainText
    else
      var s := className.value;
      match FindMatch(s, 0)
      case None => PlainText
      case Some(i) =>
        assert forall j :: LeftmostMatch(s, j) ==> j == i;
        WordRun(s[i + |LanguagePrefix|..])
  }

  // ---------------------------------------------------------------------------
  // The `code` override

  /** `t` occurs in `s` at position `i`. */
  predicate InfixAt(s: string, t: string, i: int) {
    0 <= i <= |s| - |t| && s[i..i + |t|] == t
  }

  /** `s.includes(t)`. */
  predicate Contains(s: string, t: string) {
    exists i :: 0 <= i <= |s| && InfixAt(s, t, i)
  }

  /**
   * `!className?.includes('language-')`: no class name, or one without the
   * prefix anywhere in it; a name too short to hold the prefix is inline,
   * and one that starts with it is not.
   */
  predicate IsInline(className: Option<string>): (b: bool)
    ensures className.Some? && |className.value| < |LanguagePrefix| ==> b
    ensures className.Some? && InfixAt(className.value, LanguagePrefix, 0) ==> !b
  {
    className.None? || !Contains(className.value, LanguagePrefix)
  }

  /** Whenever the class name names a language, the code is rendered as a block. */
  lemma NamedLanguageIsBlock(className: Option<string>)
    requires Truthy(className) && exists i :: 0 <= i < |className.value| && MatchesAt(className.value, i)
    ensures !IsInline(className)
  {
    var i :| 0 <= i < |className.value| && MatchesAt(className.value, i);
    assert InfixAt(className.value, LanguagePrefix, i);
  }

  /** `"language-"` alone is block code in plain text. */
  lemma BarePrefixIsPlainBlock()
    ensures !IsInline(Some(LanguagePrefix))
    ensures ExtractLanguage(Some(LanguagePrefix)) == PlainText
  {
    assert InfixAt(LanguagePrefix, LanguagePrefix, 0);
  }

  /** ECMAScript white space and line terminators, which `trim` removes. */
  predicate IsJsSpace(c: char) {
    c == '\t' || c == '\n' || c == '\U{000B}' || c == '\U{000C}' || c == '\r' || c == ' ' ||
    c == '\U{00A0}' || c == '\U{1680}' || ('\U{2000}' <= c <= '\U{200A}') ||
    c == '\U{2028}' || c == '\U{2029}' || c == '\U{202F}' || c == '\U{205F}' ||
    c == '\U{3000}' || c == '\U{FEFF}'
  }

  /** How many characters of white space `s` starts with. */
  function LeadingSpace(s: string): (n: nat)
    ensures n <= |s|
    ensures forall k :: 0 <= k < n ==> IsJsSpace(s[k])
    ensures n < |s| ==> !IsJsSpace(s[n])
  {
    if s == [] || !IsJsSpace(s[0]) then 0 else 1 + LeadingSpace(s[1..])
  }

  /** How many characters of white space `s` ends with. */
  function TrailingSpace(s: string): (n: nat)
    ensures n <= |s|
    ensures forall k :: |s| - n <= k < |s| ==> IsJsSpace(s[k])
    ensures n < |s| ==> !IsJsSpace(s[|s| - n - 1])
  {
    if s == [] || !IsJsSpace(s[|s| - 1]) then 0 else 1 + TrailingSpace(s[..|s| - 1])
  }

  /** `String.prototype.trim`. */
  function Trim(s: string): (r: string)
    ensures r == [] || (!IsJsSpace(r[0]) && !IsJsSpace(r[|r| - 1]))
    ensures exists i, j ::
      && 0 <= i <= j <= |s| && r == s[i..j]
      && (forall k :: 0 <= k < i ==> IsJsSpace(s[k]))
      && (forall k :: j <= k < |s| ==> IsJsSpace(s[k]))
  {
    var i := LeadingSpace(s);
    var t := s[i..];
    var n := TrailingSpace(t);
    var j := i + |t| - n;
    assert s[i..j] == t[..|t| - n];
    assert forall k :: j <= k < |s| ==> s[k] == t[k - i];
    t[..|t| - n]
  }

  /** Trimming trimmed text changes nothing. */
  lemma TrimIdempotent(s: string)
    ensures Trim(Trim(s)) == Trim(s)
  {
  }

  /** What the `code` override renders. */
  datatype CodeElement = InlineCode(children: string) | HighlightedBlock(language: string, code: string)

  /** The `code` override, with the children already converted to text. */
  function RenderCode(children: string, className: Option<string>): (e: CodeElement)
    ensures e.InlineCode? <==> IsInline(className)
    ensures e.InlineCode? ==> e.children == children
    ensures e.HighlightedBlock? ==>
      e.language == ExtractLanguage(className) && e.language != "" && e.code == Trim(children)
  {
    if IsInline(className) then InlineCode(children)
    else HighlightedBlock(ExtractLanguage(className), Trim(children))
  }

  // ---------------------------------------------------------------------------
  // The component map

  /** An element renderer: one of the defaults here, or one the caller supplies. */
  datatype Component = Builtin(tag: string) | Supplied(name: string)

  const DefaultKeys: set<string> :=
    {"h1", "h2", "h3", "h4", "p", "ul", "ol", "li", "a", "blockquote", "pre", "code", "hr", "small", "Small"}

  /** `{ ...defaults, ...components }`. */
  function UseMdxComponents(components: map<string, Component>): (r: map<string, Component>)
    ensures r.Keys == DefaultKeys + components.Keys
    ensures forall k :: k in components ==> r[k] == components[k]
    ensures forall k :: k in DefaultKeys && k !in components ==> r[k] == Builtin(k)
  {
    (map k | k in DefaultKeys :: Builtin(k)) + components
  }
}

=== FILE: now_playing.dfy ===
/**
 * `GET /api/spotify/now-playing`: refresh an access token, ask Spotify what
 * is playing, and fall back to the last played track when nothing is
 * playing (204) or when the current item is not a track (a podcast episode
 * or an ad) or is missing. The three upstream answers are inputs; the
 * handler's result records which upstream calls it made.
 */
module NowPlaying {
  import opened JsValues
  import opened SpotifyToken

  /** `SPOTIFY_CLIENT_ID`, `SPOTIFY_CLIENT_SECRET`, `SPOTIFY_REFRESH_TOKEN`. */
  datatype Config = Config(clientId: Option<string>, clientSecret: Option<string>, refreshToken: Option<string>)

  datatype Image = Image(url: string, height: int, width: int)

  /** A Spotify track object, reduced to the fields the handler reads. */
  datatype Track = Track(
    name: string,
    durationMs: int,
    artistNames: seq<string>,
    albumName: string,
    albumImages: seq<Image>,
    spotifyUrl: string)

  /** The token endpoint's answer: `response.ok` and the body's `access_token`. */
  datatype TokenReply = TokenReply(ok: bool, accessToken: Option<string>)

  /** The body of a currently-playing answer. */
  datatype CurrentlyPlaying = CurrentlyPlaying(
    currentlyPlayingType: Option<string>,
    isPlaying: bool,
    progressMs: Option<int>,
    item: Option<Track>)

  datatype CurrentlyPlayingReply = CurrentlyPlayingReply(status: int, body: CurrentlyPlaying)

  /** One entry of the play history; `track` may be absent. */
  datatype PlayHistory = PlayHistory(track: Option<Track>)

  /** The recently-played answer: `response.ok` and the body's `items`, if present. */
  datatype RecentlyPlayedReply = RecentlyPlayedReply(ok: bool, items: Option<seq<PlayHistory>>)

  /** What each upstream endpoint answers if it is called. */
  datatype Upstream = Upstream(token: TokenReply, current: CurrentlyPlayingReply, recent: RecentlyPlayedReply)

  /** An upstream request the handler sends. */
  datatype Call =
    | TokenCall(request: TokenRequest)
    | CurrentlyPlayingCall(bearer: string)
    | RecentlyPlayedCall(bearer: string)

  /** `progressMs` and `durationMs`, present only for the track playing now. */
  datatype Timing = Timing(progressMs: Option<int>, durationMs: int)

  /** The JSON snapshot the widget shows. */
  datatype Snapshot = Snapshot(
    isPlaying: bool,
    title: string,
    artist: string,
    album: string,
    albumImageUrl: Option<string>,
    songUrl: string,
    timing: Option<Timing>)

  datatype Body = ErrorBody(error: string) | NotPlaying | TrackBody(snapshot: Snapshot)

  datatype Response = Response(status: int, body: Body)

  /** A value together with the upstream calls made to obtain it, in order. */
  datatype Traced<T> = Traced(calls: seq<Call>, value: T)

  /** `response.ok`. */
  predicate Ok(status: int) {
    200 <= status <= 299
  }

  // ---------------------------------------------------------------------------
  // Artist names

  const Separator := ", "

  /** `names.join(", ")`. */
  function JoinNames(names: seq<string>): (s: string)
    ensures |names| == 1 ==> s == names[0]
    ensures names == [] ==> s == ""
  {
    if names == [] then ""
    else if |names| == 1 then names[0]
    else names[0] + Separator + JoinNames(names[1..])
  }

  /** `join` builds left to right: one more name adds the separator and that name. */
  lemma {:induction false} JoinNamesSnoc(names: seq<string>, n: string)
    requires names != []
    ensures JoinNames(names + [n]) == JoinNames(names) + Separator + n
  {
    var longer := names + [n];
    assert longer[0] == names[0] && longer[1..] == names[1..] + [n];
    if |names| == 1 {
      assert longer[1..] == [n];
    } else {
      JoinNamesSnoc(names[1..], n);
      assert JoinNames(longer) == names[0] + Separator + (JoinNames(names[1..]) + Separator + n);
    }
  }

  /** The separator starts at position `i` of `s`. */
  predicate SeparatorAt(s: string, i: int) {
    0 <= i && i + 1 < |s| && s[i] == ',' && s[i + 1] == ' '
  }

  predicate HasSeparator(s: string) {
    exists i :: 0 <= i < |s| && SeparatorAt(s, i)
  }

  /** The leftmost occurrence of the separator. */
  function SeparatorIndex(s: string): (r: Option<nat>)
    ensures r.Some? ==> SeparatorAt(s, r.value)
    ensures r.Some? ==> forall j :: 0 <= j < r.value ==> !SeparatorAt(s, j)
    ensures r.None? <==> !HasSeparator(s)
    decreases |s|
  {
    if |s| < 2 then None
    else if s[0] == ',' && s[1] == ' ' then assert SeparatorAt(s, 0); Some(0)
    else match SeparatorIndex(s[1..])
      case None =>
        assert forall j :: SeparatorAt(s, j) ==> SeparatorAt(s[1..], j - 1);
        None
      case Some(i) =>
        assert forall j :: 1 <= j <= i ==> (SeparatorAt(s, j) <==> SeparatorAt(s[1..], j - 1));
        assert SeparatorAt(s, i + 1);
        Some(i + 1)
  }

  /** Splits at every separator: the partner of `JoinNames`. */
  function SplitNames(s: string): (names: seq<string>)
    ensures names != []
    decreases |s|
  {
    match SeparatorIndex(s)
    case None => [s]
    case Some(i) => [s[..i]] + SplitNames(s[i + 2..])
  }

  /** A name free of the separator is found whole before the first separator. */
  lemma SeparatorAfterName(name: string, rest: string)
    requires !HasSeparator(name)
    ensures SeparatorIndex(name + Separator + rest) == Some(|name|)
  {
    var s := name + Separator + rest;
    assert SeparatorAt(s, |name|);
    var r := SeparatorIndex(s);
    forall j | 0 <= j < |name|
      ensures !SeparatorAt(s, j)
    {
      if j + 1 < |name| {
        assert !SeparatorAt(name, j);
      }
    }
  }

  /**
   * The `artist` string loses nothing: when no artist name contains ", ",
   * splitting it at ", " gives back the names, in order.
   */
  lemma {:induction false} JoinSplitRoundTrip(names: seq<string>)
    requires names != []
    requires forall n :: n in names ==> !HasSeparator(n)
    ensures SplitNames(JoinNames(names)) == names
    decreases |names|
  {
    if |names| == 1 {
    } else {
      var tail := JoinNames(names[1..]);
      SeparatorAfterName(names[0], tail);
      var s := names[0] + Separator + tail;
      assert s[..|names[0]|] == names[0];
      assert s[|names[0]| + 2..] == tail;
      JoinSplitRoundTrip(names[1..]);
    }
  }

  // ---------------------------------------------------------------------------
  // Steps of the handler

  /** `album.images[0]?.url`. */
  function FirstImageUrl(images: seq<Image>): (url: Option<string>)
    ensures url.None? <==> images == []
    ensures url.Some? ==> url.value == images[0].url
  {
    if images == [] then None else Some(images[0].url)
  }

  /** The fields every snapshot takes from its track. */
  function SnapshotOf(t: Track, isPlaying: bool, timing: Option<Timing>): (s: Snapshot)
    ensures s.title == t.name && s.album == t.albumName && s.songUrl == t.spotifyUrl
    ensures s.artist == JoinNames(t.artistNames)
    ensures s.albumImageUrl == FirstImageUrl(t.albumImages)
    ensures s.isPlaying == isPlaying && s.timing == timing
  {
    Snapshot(isPlaying, t.name, JoinNames(t.artistNames), t.albumName,
             FirstImageUrl(t.albumImages), t.spotifyUrl, timing)
  }

  /** All three credentials are configured (none `undefined` or empty). */
  predicate Configured(cfg: Config) {
    Truthy(cfg.clientId) && Truthy(cfg.clientSecret) && Truthy(cfg.refreshToken)
  }

  /** `getAccessToken`: refresh-token grant, or `null` without a call when unconfigured. */
  function GetAccessToken(cfg: Config, reply: TokenReply): (r: Traced<Option<string>>)
    ensures !Configured(cfg) ==> r.calls == [] && r.value.None?
    ensures Configured(cfg) ==> r.calls == [TokenCall(TokenRequest(
      ClientCredentials(cfg.clientId.value, cfg.clientSecret.value),
      RefreshTokenGrant(cfg.refreshToken.value)))]
    ensures r.value.Some? ==> reply.ok && r.value == reply.accessToken
    ensures Configured(cfg) && reply.ok ==> r.value == reply.accessToken
  {
    if !Configured(cfg) then Traced([], None)
    else
      var request := TokenRequest(
        ClientCredentials(cfg.clientId.value, cfg.clientSecret.value),
        RefreshTokenGrant(cfg.refreshToken.value));
      Traced([TokenCall(request)], if reply.ok then reply.accessToken else None)
  }

  /** `data.items?.[0]?.track`. */
  function FirstPlayed(items: Option<seq<PlayHistory>>): (t: Option<Track>)
    ensures t.Some? ==> items.Some? && items.value != [] && items.value[0].track == t
    ensures items.Some? && items.value != [] ==> t == items.value[0].track
  {
    match items
    case None => None
    case Some(xs) => if xs == [] then None else xs[0].track
  }

  /** `getRecentlyPlayed`: the last played track as a not-playing snapshot, or `null`. */
  function GetRecentlyPlayed(accessToken: string, reply: RecentlyPlayedReply): (r: Traced<Option<Snapshot>>)
    ensures r.calls == [RecentlyPlayedCall(accessToken)]
    ensures r.value.Some? ==> !r.value.value.isPlaying && r.value.value.timing.None?
    ensures r.value.Some? <==> reply.ok && FirstPlayed(reply.items).Some?
    ensures r.value.Some? ==> r.value.value == SnapshotOf(FirstPlayed(reply.items).value, false, None)
  {
    var value :=
      if !reply.ok then None
      else match FirstPlayed(reply.items)
        case None => None
        case Some(t) => Some(SnapshotOf(t, false, None));
    Traced([RecentlyPlayedCall(accessToken)], value)
  }

  /** `lastPlayed || { isPlaying: false }`, answered with status 200. */
  function Fallback(calls: seq<Call>, accessToken: string, reply: RecentlyPlayedReply): (r: Traced<Response>)
    ensures r.calls == calls + [RecentlyPlayedCall(accessToken)]
    ensures r.value.status == 200
    ensures r.value.body.NotPlaying? || (r.value.body.TrackBody? && !r.value.body.snapshot.isPlaying)
    ensures r.value.body.TrackBody? <==> reply.ok && FirstPlayed(reply.items).Some?
    ensures r.value.body.TrackBody? ==>
      r.value.body.snapshot == SnapshotOf(FirstPlayed(reply.items).value, false, None)
  {
    var last := GetRecentlyPlayed(accessToken, reply);
    Traced(calls + last.calls, Response(200, if last.value.Some? then TrackBody(last.value.value) else NotPlaying))
  }

  /** The answer carries no music track to show: a podcast, an ad, or no item. */
  predicate NotATrack(data: CurrentlyPlaying) {
    data.currentlyPlayingType != Some("track") || data.item.None?
  }

  /** `GET`: the whole handler. */
  function Get(cfg: Config, up: Upstream): (r: Traced<Response>)
    // No usable access token: 500, and nothing but the token call was made.
    ensures !Truthy(GetAccessToken(cfg, up.token).value) ==>
      r.value == Response(500, ErrorBody("Failed to get access token")) &&
      r.calls == GetAccessToken(cfg, up.token).calls
    // Unconfigured: no upstream call at all.
    ensures !Configured(cfg) ==> r.calls == []
    ensures Truthy(GetAccessToken(cfg, up.token).value) ==>
      var token := GetAccessToken(cfg, up.token).value.value;
      && |r.calls| >= 2 && r.calls[1] == CurrentlyPlayingCall(token)
      // 204 No Content: the last played track, or not playing.
      && (up.current.status == 204 ==> r == Fallback(r.calls[..2], token, up.recent))
      // Any other failure status is passed through.
      && (up.current.status != 204 && !Ok(up.current.status) ==>
            r.value == Response(up.current.status, ErrorBody("Failed to fetch now playing")) && |r.calls| == 2)
      // Something other than a track is playing: same fallback as 204.
      && (up.current.status != 204 && Ok(up.current.status) && NotATrack(up.current.body) ==>
            r == Fallback(r.calls[..2], token, up.recent))
      // A track is playing: its snapshot, with the playing flag and timing copied.
      && (up.current.status != 204 && Ok(up.current.status) && !NotATrack(up.current.body) ==>
            var data := up.current.body;
            r.value == Response(200, TrackBody(SnapshotOf(data.item.value, data.isPlaying,
                                                         Some(Timing(data.progressMs, data.item.value.durationMs))))) &&
            |r.calls| == 2)
  {
    var tok := GetAccessToken(cfg, up.token);
    if !Truthy(tok.value) then
      Traced(tok.calls, Response(500, ErrorBody("Failed to get access token")))
    else
      var token := tok.value.value;
      var calls := tok.calls + [CurrentlyPlayingCall(token)];
      assert calls[..2] == calls;
      if up.current.status == 204 then
        Fallback(calls, token, up.recent)
      else if !Ok(up.current.status) then
        Traced(calls, Response(up.current.status, ErrorBody("Failed to fetch now playing")))
      else
        var data := up.current.body;
        if NotATrack(data) then
          Fallback(calls, token, up.recent)
        else
          var track := data.item.value;
          Traced(calls, Response(200, TrackBody(SnapshotOf(track, data.isPlaying,
                                                           Some(Timing(data.progressMs, track.durationMs))))))
  }

  /**
   * Whatever upstream answers: an error body comes with a non-2xx status,
   * and every other body with 200.
   */
  lemma ErrorsCarryFailureStatus(cfg: Config, up: Upstream)
    ensures Get(cfg, up).value.body.ErrorBody? <==> !Ok(Get(cfg, up).value.status)
    ensures !Get(cfg, up).value.body.ErrorBody? ==> Get(cfg, up).value.status == 200
  {
  }

  /**
   * Whatever upstream answers: the token endpoint is called at most once and
   * first, and every later call carries the access token it returned.
   */
  lemma CallsFollowToken(cfg: Config, up: Upstream)
    ensures var calls := Get(cfg, up).calls;
      && |calls| <= 3
      && (calls != [] ==> calls[0].TokenCall? && Configured(cfg))
      && forall i :: 1 <= i < |calls| ==>
           !calls[i].TokenCall? && calls[i].bearer == GetAccessToken(cfg, up.token).value.value
  {
  }

  /**
   * End to end: configured, an ok token reply with a token, and a 2xx
   * (not 204) answer carrying a track give that track's snapshot, with the
   * playing flag, progress and duration copied, after exactly two calls.
   */
  lemma PlayingTrackEndToEnd(cfg: Config, up: Upstream)
    requires Configured(cfg)
    requires up.token.ok && Truthy(up.token.accessToken)
    requires Ok(up.current.status) && up.current.status != 204
    requires up.current.body.currentlyPlayingType == Some("track") && up.current.body.item.Some?
    ensures var data := up.current.body;
      && Get(cfg, up).value.status == 200
      && Get(cfg, up).value.body.TrackBody?
      && Get(cfg, up).value.body.snapshot.isPlaying == data.isPlaying
      && Get(cfg, up).value.body.snapshot.title == data.item.value.name
      && Get(cfg, up).value.body.snapshot.timing == Some(Timing(data.progressMs, data.item.value.durationMs))
      && Get(cfg, up).calls == [
           TokenCall(TokenRequest(ClientCredentials(cfg.clientId.value, cfg.clientSecret.value),
                                  RefreshTokenGrant(cfg.refreshToken.value))),
           CurrentlyPlayingCall(up.token.accessToken.value)]
  {
  }

  /** A snapshot that says a track is playing comes from currently-playing and has its timing. */
  lemma PlayingImpliesCurrentTrack(cfg: Config, up: Upstream)
    requires Get(cfg, up).value.body.TrackBody? && Get(cfg, up).value.body.snapshot.isPlaying
    ensures Ok(up.current.status) && up.current.status != 204 && !NotATrack(up.current.body)
    ensures Get(cfg, up).value.body.snapshot.timing ==
      Some(Timing(up.current.body.progressMs, up.current.body.item.value.durationMs))
  {
  }
}

=== FILE: panel_context.dfy ===
/**
 * The panel registry of `PanelProvider`: a table from a panel's slug to the
 * id of the one mounted instance allowed to render it. The same panel may be
 * mounted twice (one layout per breakpoint); ownership decides which one shows.
 */
module PanelContext {

  type Slug = string
  type InstanceId = string
  type Registry = map<Slug, InstanceId>

  /** The registry after `register(slug, id)`: the slug is claimed only if nobody owns it. */
  function Claim(m: Registry, slug: Slug, id: InstanceId): (r: Registry)
    ensures slug in r
    ensures r[slug] == if slug in m then m[slug] else id
    ensures r.Keys == m.Keys + {slug}
    ensures forall s :: s in m && s != slug ==> r[s] == m[s]
  {
    if slug !in m then m[slug := id] else m
  }

  /** The registry after `unregister(slug, id)`: the entry goes only if `id` owns it. */
  function Release(m: Registry, slug: Slug, id: InstanceId): (r: Registry)
    ensures slug in m && m[slug] == id ==> r.Keys == m.Keys - {slug}
    ensures !(slug in m && m[slug] == id) ==> r == m
    ensures forall s :: s in r ==> s in m && r[s] == m[s]
  {
    if slug in m && m[slug] == id then m - {slug} else m
  }

  /** `isFirst(slug, id)`: may instance `id` render panel `slug`? */
  predicate IsFirstIn(m: Registry, slug: Slug, id: InstanceId)
  {
    (slug in m && m[slug] == id) || slug !in m
  }

  /** Registering and then unregistering on a free slug puts the registry back as it was. */
  lemma ClaimThenReleaseRestores(m: Registry, slug: Slug, id: InstanceId)
    requires slug !in m
    ensures Release(Claim(m, slug, id), slug, id) == m
  {
  }

  /** A call the panels make on the registry. */
  datatype RegistryCall = Register(slug: Slug, id: InstanceId) | Unregister(slug: Slug, id: InstanceId)

  /** The registry after the calls have been applied one by one. */
  function Replay(m: Registry, calls: seq<RegistryCall>): (r: Registry)
    ensures r.Keys <= m.Keys + set c | c in calls :: c.slug
    decreases |calls|
  {
    if calls == [] then m
    else
      var next := match calls[0]
        case Register(s, id) => Claim(m, s, id)
        case Unregister(s, id) => Release(m, s, id);
      Replay(next, calls[1..])
  }

  /** No call in `calls` is `unregister(slug, id)`. */
  predicate KeepsOwner(calls: seq<RegistryCall>, slug: Slug, id: InstanceId)
  {
    forall i :: 0 <= i < |calls| ==> calls[i] != Unregister(slug, id)
  }

  /**
   * Once `owner` holds `slug`, it keeps it through any calls until it
   * unregisters itself: every other instance's `isFirst` stays false.
   */
  lemma {:induction false} OwnerKeepsSlug(m: Registry, slug: Slug, owner: InstanceId, calls: seq<RegistryCall>)
    requires slug in m && m[slug] == owner
    requires KeepsOwner(calls, slug, owner)
    ensures var r := Replay(m, calls); slug in r && r[slug] == owner
    ensures forall other :: other != owner ==> !IsFirstIn(Replay(m, calls), slug, other)
    decreases |calls|
  {
    if calls != [] {
      var next := match calls[0]
        case Register(s, id) => Claim(m, s, id)
        case Unregister(s, id) => Release(m, s, id);
      assert calls[0] != Unregister(slug, owner);
      assert slug in next && next[slug] == owner;
      assert KeepsOwner(calls[1..], slug, owner) by {
        forall i | 0 <= i < |calls[1..]| ensures calls[1..][i] != Unregister(slug, owner) {
          assert calls[1..][i] == calls[i + 1];
        }
      }
      OwnerKeepsSlug(next, slug, owner, calls[1..]);
    }
  }

  /**
   * Of two instances of one panel, the one that registers first on a free
   * slug is the only one that may render until it unregisters, whatever the
   * other does meanwhile.
   */
  lemma FirstRegistrantWins(m: Registry, slug: Slug, first: InstanceId, second: InstanceId, later: seq<RegistryCall>)
    requires slug !in m
    requires first != second
    requires KeepsOwner(later, slug, first)
    ensures IsFirstIn(Replay(m, [Register(slug, first)] + later), slug, first)
    ensures !IsFirstIn(Replay(m, [Register(slug, first)] + later), slug, second)
  {
    var calls := [Register(slug, first)] + later;
    assert calls[1..] == later;
    assert Replay(m, calls) == Replay(Claim(m, slug, first), later);
    OwnerKeepsSlug(Claim(m, slug, first), slug, first, later);
  }

  /** In any registry, a slug that is owned has at most one instance that may render it. */
  lemma AtMostOneWinner(m: Registry, slug: Slug, a: InstanceId, b: InstanceId)
    requires slug in m
    requires IsFirstIn(m, slug, a) && IsFirstIn(m, slug, b)
    ensures a == b
  {
  }

  /**
   * Every owner in the registry either was there before the calls or got
   * there by its own `register` call: nobody is ever entered on another's behalf.
   */
  lemma {:induction false} OwnersRegistered(m: Registry, calls: seq<RegistryCall>, slug: Slug)
    requires slug in Replay(m, calls)
    ensures (slug in m && Replay(m, calls)[slug] == m[slug]) ||
            Register(slug, Replay(m, calls)[slug]) in calls
    decreases |calls|
  {
    if calls != [] {
      var next := match calls[0]
        case Register(s, id) => Claim(m, s, id)
        case Unregister(s, id) => Release(m, s, id);
      assert Replay(m, calls) == Replay(next, calls[1..]);
      OwnersRegistered(next, calls[1..], slug);
      var owner := Replay(m, calls)[slug];
      if Register(slug, owner) in calls[1..] {
        assert Register(slug, owner) in calls;
      }
    }
  }

  /** `PanelProvider`: the registry as React state, replaced on each call. */
  class PanelProvider {
    var registry: Registry

    constructor ()
      ensures registry == map[]
    {
      registry := map[];
    }

    /** `register(slug, id)`. */
    method Register(slug: Slug, id: InstanceId)
      modifies this
      ensures registry == Claim(old(registry), slug, id)
    {
      if slug !in registry {
        registry := registry[slug := id];
      }
    }

    /** `unregister(slug, id)`. */
    method Unregister(slug: Slug, id: InstanceId)
      modifies this
      ensures registry == Release(old(registry), slug, id)
    {
      if slug in registry && registry[slug] == id {
        registry := registry - {slug};
      }
    }

    /** `isFirst(slug, id)` against the current registry. */
    function IsFirst(slug: Slug, id: InstanceId): (b: bool)
      reads this
      ensures b <==> slug !in registry || registry[slug] == id
    {
      IsFirstIn(registry, slug, id)
    }
  }
}

=== FILE: query_params.dfy ===
/**
 * The query string as `URLSearchParams` holds it: an ordered list of
 * name-value pairs in which a name may repeat. `get`, `set` and `delete`
 * follow the URL Standard (WHATWG), section 6.2 "URLSearchParams class".
 */
module QueryParams {
  import opened JsValues

  type Pair = (string, string)

  /** Position of the first pair named `name`, if any. */
  function FirstIndex(ps: seq<Pair>, name: string): (r: Option<nat>)
    ensures r.Some? ==> r.value < |ps| && ps[r.value].0 == name
    ensures r.Some? ==> forall j :: 0 <= j < r.value ==> ps[j].0 != name
    ensures r.None? ==> forall j :: 0 <= j < |ps| ==> ps[j].0 != name
  {
    if ps == [] then None
    else if ps[0].0 == name then Some(0)
    else match FirstIndex(ps[1..], name)
      case None => None
      case Some(i) => Some(i + 1)
  }

  /** `get(name)`: the value of the first pair named `name`, or `null`. */
  function FirstValue(ps: seq<Pair>, name: string): (r: Option<string>)
    ensures r.None? <==> forall p :: p in ps ==> p.0 != name
    ensures r.Some? ==> (name, r.value) in ps
    ensures r.Some? ==> exists i :: 0 <= i < |ps| && ps[i] == (name, r.value) && forall j :: 0 <= j < i ==> ps[j].0 != name
  {
    match FirstIndex(ps, name)
    case None => None
    case Some(i) => assert ps[i] == (name, ps[i].1); Some(ps[i].1)
  }

  /** `delete(name)`: every pair named `name` removed, the others kept in order. */
  function Without(ps: seq<Pair>, name: string): (r: seq<Pair>)
    ensures forall p :: p in r <==> p in ps && p.0 != name
    ensures |r| <= |ps|
  {
    if ps == [] then []
    else if ps[0].0 == name then Without(ps[1..], name)
    else [ps[0]] + Without(ps[1..], name)
  }

  /** `delete` keeps every pair of another name as often as it occurs. */
  lemma {:induction false} WithoutCounts(ps: seq<Pair>, name: string)
    ensures forall p :: multiset(Without(ps, name))[p] == if p.0 == name then 0 else multiset(ps)[p]
  {
    if ps != [] {
      WithoutCounts(ps[1..], name);
      assert ps == [ps[0]] + ps[1..];
    }
  }

  /**
   * `set(name, value)`: the first pair named `name` gets `value` and the
   * other pairs of that name are removed; with no such pair, `(name, value)`
   * is appended.
   */
  function SetValue(ps: seq<Pair>, name: string, value: string): (r: seq<Pair>)
    ensures FirstValue(r, name) == Some(value)
    ensures Without(r, name) == Without(ps, name)
  {
    if ps == [] then [(name, value)]
    else if ps[0].0 == name then
      WithoutIdempotent(ps[1..], name);
      assert ([(name, value)] + Without(ps[1..], name))[1..] == Without(ps[1..], name);
      [(name, value)] + Without(ps[1..], name)
    else
      var rest := SetValue(ps[1..], name, value);
      assert ([ps[0]] + rest)[1..] == rest;
      [ps[0]] + rest
  }

  /** `delete` works pair by pair: it keeps the order of what it keeps. */
  lemma {:induction false} WithoutConcat(a: seq<Pair>, b: seq<Pair>, name: string)
    ensures Without(a + b, name) == Without(a, name) + Without(b, name)
  {
    if a != [] {
      var ab := a + b;
      assert ab != [] && ab[0] == a[0];
      assert ab[1..] == a[1..] + b;
      WithoutConcat(a[1..], b, name);
      if a[0].0 == name {
        assert Without(ab, name) == Without(a[1..] + b, name);
        assert Without(a, name) == Without(a[1..], name);
      } else {
        assert Without(ab, name) == [a[0]] + Without(a[1..] + b, name);
        assert Without(a, name) == [a[0]] + Without(a[1..], name);
        assert [a[0]] + (Without(a[1..], name) + Without(b, name)) ==
               ([a[0]] + Without(a[1..], name)) + Without(b, name);
      }
    } else {
      assert a + b == b;
    }
  }

  /** `delete` of a name no pair carries changes nothing. */
  lemma {:induction false} WithoutAbsent(ps: seq<Pair>, name: string)
    requires forall j :: 0 <= j < |ps| ==> ps[j].0 != name
    ensures Without(ps, name) == ps
  {
    if ps != [] {
      WithoutAbsent(ps[1..], name);
      assert [ps[0]] + ps[1..] == ps;
    }
  }

  /** With no pair of that name, `set` appends `(name, value)`. */
  lemma {:induction false} SetValueAppends(ps: seq<Pair>, name: string, value: string)
    requires FirstIndex(ps, name).None?
    ensures SetValue(ps, name, value) == ps + [(name, value)]
  {
    if ps == [] {
      assert SetValue(ps, name, value) == [(name, value)];
    } else {
      assert ps[0].0 != name;
      assert FirstIndex(ps[1..], name).None?;
      SetValueAppends(ps[1..], name, value);
      assert SetValue(ps, name, value) == [ps[0]] + (ps[1..] + [(name, value)]);
      ConsAppend(ps, [(name, value)]);
    }
  }

  /**
   * `set` puts the pair in place of the first pair of that name and removes
   * the later pairs of the name.
   */
  lemma {:induction false} SetValueReplaces(ps: seq<Pair>, name: string, value: string, i: nat)
    requires FirstIndex(ps, name) == Some(i)
    ensures SetValue(ps, name, value) == ps[..i] + [(name, value)] + Without(ps[i + 1..], name)
  {
    if ps[0].0 == name {
      assert ps[..i] == [];
    } else {
      assert FirstIndex(ps[1..], name) == Some(i - 1);
      SetValueReplaces(ps[1..], name, value, i - 1);
      SetValueSkipsHead(ps, name, value);
      assert ps[1..][i..] == ps[i + 1..];
      ConsSplice(ps, i, (name, value), Without(ps[i + 1..], name));
    }
  }

  /** `set` leaves a head of another name where it is. */
  lemma SetValueSkipsHead(ps: seq<Pair>, name: string, value: string)
    requires ps != [] && ps[0].0 != name
    ensures SetValue(ps, name, value) == [ps[0]] + SetValue(ps[1..], name, value)
  {
  }

  /** Consing the head back onto the tail, then appending. */
  lemma ConsAppend<T>(s: seq<T>, t: seq<T>)
    requires s != []
    ensures [s[0]] + (s[1..] + t) == s + t
  {
    assert s == [s[0]] + s[1..];
  }

  /** Splicing `x` after the first `i` elements, seen through the tail. */
  lemma ConsSplice<T>(s: seq<T>, i: nat, x: T, u: seq<T>)
    requires 1 <= i < |s|
    ensures [s[0]] + (s[1..][..i - 1] + [x] + u) == s[..i] + [x] + u
  {
    assert s[..i] == [s[0]] + s[1..][..i - 1];
  }

  /** Deleting a name twice is deleting it once. */
  lemma {:induction false} WithoutIdempotent(ps: seq<Pair>, name: string)
    ensures Without(Without(ps, name), name) == Without(ps, name)
  {
    if ps != [] {
      WithoutIdempotent(ps[1..], name);
      if ps[0].0 != name {
        var rest := Without(ps[1..], name);
        assert ([ps[0]] + rest)[1..] == rest;
      }
    }
  }

  /** After `set`, exactly one pair carries the name. */
  lemma {:induction false} SetValueLeavesOnePair(ps: seq<Pair>, name: string, value: string)
    ensures Count(SetValue(ps, name, value), name) == 1
  {
    if ps == [] {
    } else if ps[0].0 == name {
      NoneLeftAfterWithout(ps[1..], name);
      assert ([(name, value)] + Without(ps[1..], name))[1..] == Without(ps[1..], name);
    } else {
      SetValueLeavesOnePair(ps[1..], name, value);
      var rest := SetValue(ps[1..], name, value);
      assert ([ps[0]] + rest)[1..] == rest;
    }
  }

  /** Number of pairs carrying `name`. */
  function Count(ps: seq<Pair>, name: string): nat
  {
    if ps == [] then 0
    else (if ps[0].0 == name then 1 else 0) + Count(ps[1..], name)
  }

  lemma {:induction false} NoneLeftAfterWithout(ps: seq<Pair>, name: string)
    ensures Count(Without(ps, name), name) == 0
  {
    if ps != [] {
      NoneLeftAfterWithout(ps[1..], name);
      if ps[0].0 != name {
        var rest := Without(ps[1..], name);
        assert ([ps[0]] + rest)[1..] == rest;
      }
    }
  }

  /** Removing one name does not change what `get` says about any other name. */
  lemma {:induction false} OtherNamesUnaffected(ps: seq<Pair>, name: string, other: string)
    requires other != name
    ensures FirstValue(Without(ps, name), other) == FirstValue(ps, other)
  {
    if ps != [] {
      OtherNamesUnaffected(ps[1..], name, other);
      if ps[0].0 != name {
        var rest := Without(ps[1..], name);
        assert ([ps[0]] + rest)[1..] == rest;
        assert FirstValue([ps[0]] + rest, other) == (if ps[0].0 == other then Some(ps[0].1) else FirstValue(rest, other)) by {
          FirstValueCons(ps[0], rest, other);
        }
      }
      FirstValueCons(ps[0], ps[1..], other);
      assert [ps[0]] + ps[1..] == ps;
    }
  }

  /** Setting one name does not change what `get` says about any other name. */
  lemma SetLeavesOtherNames(ps: seq<Pair>, name: string, value: string, other: string)
    requires other != name
    ensures FirstValue(SetValue(ps, name, value), other) == FirstValue(ps, other)
  {
    OtherNamesUnaffected(SetValue(ps, name, value), name, other);
    OtherNamesUnaffected(ps, name, other);
  }

  /** `get` looks at the head first. */
  lemma FirstValueCons(p: Pair, rest: seq<Pair>, name: string)
    ensures FirstValue([p] + rest, name) == if p.0 == name then Some(p.1) else FirstValue(rest, name)
  {
  }

  /** A mutable `URLSearchParams` object. */
  class SearchParams {
    var pairs: seq<Pair>

    /** `new URLSearchParams(init)`; serialising and re-parsing is taken as the identity. */
    constructor (init: seq<Pair>)
      ensures pairs == init
    {
      pairs := init;
    }

    method Set(name: string, value: string)
      modifies this
      ensures pairs == SetValue(old(pairs), name, value)
    {
      pairs := SetValue(pairs, name, value);
    }

    method Delete(name: string)
      modifies this
      ensures pairs == Without(old(pairs), name)
    {
      pairs := Without(pairs, name);
    }
  }
}

=== FILE: spotify_callback.dfy ===
/**
 * `GET /api/spotify/callback`: the redirect target of Spotify's
 * authorization step. It checks its query and configuration in a fixed
 * order, exchanges the code for tokens (RFC 6749, section 4.1.3) and echoes
 * them back for manual copying into configuration.
 */
module SpotifyCallback {
  import opened JsValues
  import opened QueryParams
  import opened SpotifyToken

  /** `SPOTIFY_CLIENT_ID`, `SPOTIFY_CLIENT_SECRET`, `SPOTIFY_REDIRECT_URI`. */
  datatype Config = Config(clientId: Option<string>, clientSecret: Option<string>, redirectUri: Option<string>)

  /** The token endpoint's answer: `response.ok` and the fields of its JSON body. */
  datatype TokenReply = TokenReply(
    ok: bool,
    errorDescription: Option<string>,
    accessToken: Option<string>,
    refreshToken: Option<string>,
    expiresIn: Option<int>)

  const SuccessMessage := "Success! Copy the refresh_token to your .env file"

  datatype Body =
    | ErrorBody(error: string)
    | TokensBody(message: string, accessToken: Option<string>, refreshToken: Option<string>, expiresIn: Option<int>)

  /** The response, and the token request sent to obtain it, if one was sent. */
  datatype Outcome = Outcome(request: Option<TokenRequest>, status: int, body: Body)

  predicate Configured(cfg: Config) {
    Truthy(cfg.clientId) && Truthy(cfg.clientSecret) && Truthy(cfg.redirectUri)
  }

  /** `GET`: `query` is the callback URL's query string. */
  function Get(query: seq<Pair>, cfg: Config, reply: TokenReply): (o: Outcome)
    // 1. The authorization server reported an error: 400 with it, before anything else.
    ensures Truthy(FirstValue(query, "error")) ==>
      o == Outcome(None, 400, ErrorBody(FirstValue(query, "error").value))
    // 2. No code.
    ensures !Truthy(FirstValue(query, "error")) && !Truthy(FirstValue(query, "code")) ==>
      o == Outcome(None, 400, ErrorBody("Missing code"))
    // 3. Incomplete configuration: 500, only once the query has passed.
    ensures o.status == 500 <==>
      !Truthy(FirstValue(query, "error")) && Truthy(FirstValue(query, "code")) && !Configured(cfg)
    ensures o.status == 500 ==> o == Outcome(None, 500, ErrorBody("Missing Spotify configuration"))
    // The token request is sent only when every check passes, with the received code.
    ensures o.request.Some? <==>
      !Truthy(FirstValue(query, "error")) && Truthy(FirstValue(query, "code")) && Configured(cfg)
    ensures o.request.Some? ==>
      o.request.value == TokenRequest(
        ClientCredentials(cfg.clientId.value, cfg.clientSecret.value),
        AuthorizationCodeGrant(FirstValue(query, "code").value, cfg.redirectUri.value))
    // 4. The exchange failed: 400 with the server's description or a fixed text.
    ensures o.request.Some? && !reply.ok ==>
      o.status == 400 && o.body == ErrorBody(OrElse(reply.errorDescription, "Token exchange failed"))
    // 5. Success echoes the tokens unchanged.
    ensures o.request.Some? && reply.ok ==>
      o.status == 200 &&
      o.body == TokensBody(SuccessMessage, reply.accessToken, reply.refreshToken, reply.expiresIn)
  {
    var code := FirstValue(query, "code");
    var error := FirstValue(query, "error");
    if Truthy(error) then Outcome(None, 400, ErrorBody(error.value))
    else if !Truthy(code) then Outcome(None, 400, ErrorBody("Missing code"))
    else if !Configured(cfg) then Outcome(None, 500, ErrorBody("Missing Spotify configuration"))
    else
      var request := TokenRequest(
        ClientCredentials(cfg.clientId.value, cfg.clientSecret.value),
        AuthorizationCodeGrant(code.value, cfg.redirectUri.value));
      if !reply.ok then
        Outcome(Some(request), 400, ErrorBody(OrElse(reply.errorDescription, "Token exchange failed")))
      else
        Outcome(Some(request), 200, TokensBody(SuccessMessage, reply.accessToken, reply.refreshToken, reply.expiresIn))
  }

  /**
   * The form body of the token request carries `grant_type=authorization_code`,
   * the received code and the configured redirect URI.
   */
  lemma TokenRequestCarriesCode(query: seq<Pair>, cfg: Config, reply: TokenReply)
    requires Get(query, cfg, reply).request.Some?
    ensures var body := FormBody(Get(query, cfg, reply).request.value.grant);
      && FirstValue(body, "grant_type") == Some("authorization_code")
      && FirstValue(body, "code") == FirstValue(query, "code")
      && FirstValue(body, "redirect_uri") == cfg.redirectUri
  {
  }

  /** The reply never changes which checks fail: every early rejection is independent of it. */
  lemma RejectionsIgnoreReply(query: seq<Pair>, cfg: Config, r1: TokenReply, r2: TokenReply)
    requires Get(query, cfg, r1).request.None?
    ensures Get(query, cfg, r1) == Get(query, cfg, r2)
  {
  }
}

=== FILE: spotify_token.dfy ===
/**
 * The request both Spotify routes send to the accounts service's token
 * endpoint: client authentication with HTTP Basic (RFC 6749, section 2.3.1)
 * and a form-encoded grant, either the authorization code (RFC 6749,
 * section 4.1.3) or the refresh token (RFC 6749, section 6).
 */
module SpotifyToken {
  import opened JsValues
  import opened QueryParams

  /** The client id and secret sent as `Authorization: Basic base64(id:secret)`. */
  datatype ClientCredentials = ClientCredentials(clientId: string, clientSecret: string)

  datatype Grant =
    | RefreshTokenGrant(refreshToken: string)
    | AuthorizationCodeGrant(code: string, redirectUri: string)

  /** A POST to the token endpoint. */
  datatype TokenRequest = TokenRequest(auth: ClientCredentials, grant: Grant)

  /** The `application/x-www-form-urlencoded` body, in the order the routes build it. */
  function FormBody(g: Grant): (body: seq<Pair>)
    ensures g.RefreshTokenGrant? ==>
      FirstValue(body, "grant_type") == Some("refresh_token") &&
      FirstValue(body, "refresh_token") == Some(g.refreshToken)
    ensures g.AuthorizationCodeGrant? ==>
      FirstValue(body, "grant_type") == Some("authorization_code") &&
      FirstValue(body, "code") == Some(g.code) &&
      FirstValue(body, "redirect_uri") == Some(g.redirectUri)
  {
    match g
    case RefreshTokenGrant(rt) =>
      [("grant_type", "refresh_token"), ("refresh_token", rt)]
    case AuthorizationCodeGrant(code, uri) =>
      [("grant_type", "authorization_code"), ("code", code), ("redirect_uri", uri)]
  }
}
